=== FILE: README.md ===
# Single-node ledger with proof of work, in Dafny

This project models the ledger engine of a small Go blockchain (`block/blockchain.go`):
an append-only chain of blocks, a pool of admitted transactions, signature-gated
admission with a reserved mining sender `"CHAIN"`, a least-nonce proof-of-work
search, mining that pays a reward of 1.0 and commits the pool, and a balance query
that folds over every committed transaction.

The ledger is a value (`Ledger.BlockChain`: pool, chain, address, port), and every
operation is a transition from one value to the next. The primitives the source
takes from libraries are one record, `Blocks.Crypto`, that every operation receives:

- the SHA-256 digest of a transaction's JSON encoding (`txHash`);
- the SHA-256 digest of a block's JSON encoding (`blockHash`);
- ECDSA verification of a signature over a digest (`verify`).

Each of these is an arbitrary total function of the datatype's fields, and every
property below holds whichever functions are chosen. `VerifyTransactionSignature`
is `verify` applied to the transaction's own digest. The `%x` rendering of a
digest, which the proof-of-work rule reads, is written out concretely
(`HexEncoding.Hex`: two lowercase hex digits per byte, 64 characters for a
digest). The clock reading `time.Now()` is a parameter (`now`) of the operations
that stamp a block.

Modules, leaves first: `HexEncoding` (hex.dfy), `Blocks` (block.dfy: transactions,
blocks, digests, constants, `Crypto`), `Proofs` (proof.dfy: the proof-of-work rule),
`Balances` (balance.dfy: the balance fold), `Ledger` (ledger.dfy: the state machine),
`Scenarios` (scenario.dfy: a start-up, transfer and mining run end to end).

Three details of the code are kept as written:

- The proof-of-work candidate is hashed with timestamp 0, not with a timestamp taken at
  mining time. The committed block carries the clock reading instead, so its own hash
  is not promised to meet the difficulty (`Proofs.CommittedHashNotCovered`).
- The search hard-codes difficulty 3 rather than reading `MINING_DIFFICULTY`. Both are 3.
- A mined block holds the pool first and the reward transaction last. There is no reward
  in the genesis block.

## Model

| member | source | states |
|---|---|---|
| HexEncoding.HexDigit | block/blockchain.go:185 | a nibble's lowercase hex digit is `'0'` exactly when the nibble is 0, and is always one of `0-9a-f` |
| HexEncoding.Hex | block/blockchain.go:185 | `%x` of n bytes is 2n characters long |
| HexEncoding.HexAt | block/blockchain.go:185 | byte i of the digest is rendered at characters 2i (its high nibble) and 2i+1 (its low nibble) |
| HexEncoding.Repeat | block/blockchain.go:177 | `strings.Repeat("0", d)` is d characters, each `'0'` |
| HexEncoding.HexZeroPrefix | block/blockchain.go:185-187 | the hex rendering starts with d zeros iff the first ⌊d/2⌋ bytes are 0 and, for odd d, the next byte is below 16 |
| Proofs.ValidProof | block/blockchain.go:176-188 | a nonce is valid iff the hash of the timestamp-0 candidate block has d leading zero nibbles; every nonce is valid at difficulty 0; difficulty must lie in 0..64 |
| Proofs.ValidProofMonotone | block/blockchain.go:176-188 | a nonce valid at difficulty d is valid at every lower difficulty |
| Proofs.LeastNonceAtZeroDifficulty | block/blockchain.go:176-188 | of the least-valid-nonce predicate `IsLeastValidNonce`, not of the search (which always uses difficulty 3): at difficulty 0 it holds of nonce 0 and of no other nonce |
| Proofs.CommittedHashNotCovered | block/blockchain.go:176-188 | for some hash function, a block whose nonce is a valid proof for its predecessor hash and transactions still has a hash without the leading zeros, because only the timestamp-0 candidate is checked |
| Balances.TxDelta | block/blockchain.go:215-222 | a transaction credits its receiver and debits its sender by its value; a self-transfer nets 0 and an uninvolved address gets 0 |
| Balances.TxsDeltaConcat | block/blockchain.go:215-223 | the contribution of a list of transactions splits over concatenation |
| Balances.BalanceConcat | block/blockchain.go:212-227 | the balance over a chain splits over concatenation of chains |
| Balances.BalanceAppend | block/blockchain.go:212-227 | appending a block changes every balance by exactly that block's contribution |
| Balances.UninvolvedTransactions | block/blockchain.go:217-222 | transactions that are self-transfers or do not name the address leave its balance at 0 |
| Ledger.LastBlock | block/blockchain.go:134-136 | the last committed block: a member of the chain, which is its earlier blocks followed by it; only defined on a non-empty chain |
| Ledger.CreateBlock | block/blockchain.go:127-132 | the chain grows by one block and earlier blocks are unchanged; the new last block has the given nonce, prevHash and timestamp and exactly the pre-call pool in order; the pool is empty afterwards |
| Ledger.CreateBlockLinked | block/blockchain.go:127-132 | on an intact chain, a commit keeps the chain intact iff its prevHash is the hash of the current last block |
| Ledger.NewBlockChain | block/blockchain.go:111-117 | a fresh ledger has one block and an empty pool; that block is the last block, has nonce 0, no transactions and the zero block's hash as prevHash; the chain is intact |
| Ledger.AddTransaction | block/blockchain.go:138-166 | the chain never changes; sender `"CHAIN"` is always admitted; any other transaction is admitted iff `VerifyTransactionSignature` holds, that is iff `verify` accepts the signature over the transaction's own digest `txHash`, the digest `Transaction.Hash` also computes; admission appends exactly (sender, receiver, value) to the pool; rejection leaves the pool unchanged |
| Ledger.CopyPool | block/blockchain.go:168-174 | the copy has the pool's transactions, field for field, in the same order |
| Ledger.ProofOfWork | block/blockchain.go:190-200 | the result is the least non-negative nonce that proves work at difficulty 3 for the pool and the hash of the last block; every smaller nonce fails |
| Ledger.Mining | block/blockchain.go:202-210 | returns true; the chain is one block longer and earlier blocks are unchanged; the new block links to the hash of the previous last block, holds the old pool followed by the reward `"CHAIN"` → own address of 1.0, carries the least valid nonce, and the pool is empty; chain integrity is preserved; every balance changes by the pool's and the reward's contributions |
| Ledger.CalculateTotalAmount | block/blockchain.go:212-227 | the nested walk over blocks and transactions computes the balance fold over the whole chain |
| Scenarios.TransferAndMine | block/blockchain.go:202-227 | start node "A", admit a signed transfer A→B of 2.0, mine: the new block holds the transfer then the reward, the pool is empty, the chain is intact, A's balance is -1.0 and B's is 2.0 |

## Left out

- SHA-256, the JSON encoding hashed by `Hash` and signed by wallets, and ECDSA are not modelled. They are the fields of `Crypto`, because they are library cryptography and serialization.
- JSON prints a nil transaction slice as `null` and an empty one as `[]`. The zero block and the genesis block have nil slices, and later blocks have empty or filled ones. Here both are the empty sequence, so the hash function cannot tell them apart. This affects only which bytes are hashed, and no property depends on it.
- Values and balances are float32 in the source and `real` here. Float32 rounding and the order-dependence of float sums are not modelled.
- Float32 has a negative zero and `real` does not, so float32 −0 and +0 are the one `real` 0.0 here. The source's JSON writes −0 as `-0` and +0 as `0`, so in the source the two transactions have different digests, and a signature valid for one fails for the other. In the model they are one transaction, with one digest and one verification result.
- Non-finite float32 values (NaN, +Inf, -Inf) have no `real` counterpart and are not modelled. For such a value `json.Marshal` fails, and the source discards that error (block/blockchain.go:55, 90, 163), so it hashes the empty input. Every transaction with a non-finite value then has the same digest, the SHA-256 of the empty string. So a signature that verifies for one of them verifies for all of them under the same key. Any candidate block holding such a transaction also hashes to that digest, which begins `e3b0` and never with `000`. Once such a value is in the pool, and the `"CHAIN"` sender admits any value, `ProofOfWork` and `Mining` loop forever. In the model this is the case the `Mineable` precondition excludes.
- Blocks.VerifyTransactionSignature: kept as a definition, `verify` over `txHash(t)`, with no contract of its own. What it promises is stated by `Ledger.AddTransaction`.
- `time.Now()` is the `now` parameter of `CreateBlock`, `NewBlockChain` and `Mining`, because the clock is I/O.
- Ledger.ProofOfWork: requires that some non-negative nonce is valid. Without one, the source loops forever.
- Ledger.Mining: requires, for the same reason, that some non-negative nonce is valid for the pool with the reward appended.
- Nonces are unbounded integers. The wrap-around of Go's 64-bit `int` after 2^63 − 1 increments of the search is not modelled.
- Proofs.ValidProof: requires a difficulty in 0..64. A negative one makes `strings.Repeat` panic, and one above 64 slices past the 64-character hex string.
- Ledger.LastBlock: requires a non-empty chain. On an empty chain the source indexes out of range and panics. Every ledger built by `NewBlockChain` has at least the genesis block.
- Ledger.AddTransaction: requires a key and a signature when the sender is not `"CHAIN"`. A nil one makes the source dereference nil and panic.
- `CreateBlock` returns the new block in the source. Here it returns the new ledger, whose `LastBlock` is that block.
- `NewTransaction` and `NewBlock` are the datatype constructors, with the timestamp passed in.
- `MINING_DIFFICULTY` is declared as `Proofs.MiningDifficulty`, but the search uses `Proofs.ProofOfWorkDifficulty`, the literal 3.
- The `Print` methods, `log.Println` and the ledger's `MarshalJSON` are left out. They are console output and the HTTP layer's serialization.
- The commented-out insufficient-balance check in `AddTransaction` is left out, because it is not live code.
- The HTTP servers, the wallet (key generation, signing, address derivation) and the global ledger cache are left out. They are I/O and identity plumbing outside the ledger.
- Concurrency is left out. The source has one sequential owner of pool and chain, and so does the model.

=== FILE: balance.dfy ===
/** The balance of an address: a signed sum over every committed transaction,
    in chain order, crediting the receiver and debiting the sender. */
module Balances {
  import opened Blocks

  /** What one transaction adds to the balance of `a`. */
  function TxDelta(t: Transaction, a: string): (d: real)
    ensures t.sender == t.receiver ==> d == 0.0
    ensures a != t.sender && a != t.receiver ==> d == 0.0
    ensures a == t.receiver && a != t.sender ==> d == t.value
    ensures a == t.sender && a != t.receiver ==> d == -t.value
  {
    (if a == t.receiver then t.value else 0.0) - (if a == t.sender then t.value else 0.0)
  }

  /** What a list of transactions adds to the balance of `a`. */
  function TxsDelta(txs: seq<Transaction>, a: string): (d: real)
  {
    if |txs| == 0 then 0.0 else TxDelta(txs[0], a) + TxsDelta(txs[1..], a)
  }

  /** The balance of `a` over a chain: the fold over all blocks, first to last. */
  function Balance(chain: seq<Block>, a: string): (total: real)
  {
    if |chain| == 0 then 0.0 else TxsDelta(chain[0].transactions, a) + Balance(chain[1..], a)
  }

  /** Splitting a list of transactions splits its contribution. */
  lemma {:induction false} TxsDeltaConcat(xs: seq<Transaction>, ys: seq<Transaction>, a: string)
    ensures TxsDelta(xs + ys, a) == TxsDelta(xs, a) + TxsDelta(ys, a)
  {
    if |xs| == 0 {
      assert xs + ys == ys;
    } else {
      assert (xs + ys)[1..] == xs[1..] + ys;
      TxsDeltaConcat(xs[1..], ys, a);
    }
  }

  /** Splitting a chain splits the balance. */
  lemma {:induction false} BalanceConcat(xs: seq<Block>, ys: seq<Block>, a: string)
    ensures Balance(xs + ys, a) == Balance(xs, a) + Balance(ys, a)
  {
    if |xs| == 0 {
      assert xs + ys == ys;
    } else {
      assert (xs + ys)[1..] == xs[1..] + ys;
      BalanceConcat(xs[1..], ys, a);
    }
  }

  /** Appending a block changes every balance by exactly that block's
      contribution. */
  lemma {:induction false} BalanceAppend(chain: seq<Block>, b: Block, a: string)
    ensures Balance(chain + [b], a) == Balance(chain, a) + TxsDelta(b.transactions, a)
  {
    BalanceConcat(chain, [b], a);
  }

  /** A transaction that does not involve `a`, and a self-transfer, leave the
      balance of `a` where it was. */
  lemma {:induction false} UninvolvedTransactions(txs: seq<Transaction>, a: string)
    requires forall i :: 0 <= i < |txs| ==> (txs[i].sender == txs[i].receiver || (txs[i].sender != a && txs[i].receiver != a))
    ensures TxsDelta(txs, a) == 0.0
  {
    if |txs| > 0 {
      UninvolvedTransactions(txs[1..], a);
    }
  }
}

=== FILE: block.dfy ===
/** The ledger's values: transactions, blocks, digests and the cryptographic
    primitives they are hashed and signed with. */
module Blocks {
  import opened HexEncoding

  /** A SHA-256 digest: 32 bytes. */
  type Digest = s: seq<byte> | |s| == 32 witness ZeroDigest

  /** The all-zero digest, the `prevHash` of a zero-valued block. */
  const ZeroDigest: seq<byte> := seq(32, _ => 0)

  /** The reserved sender of mining rewards, exempt from signature checks. */
  const MiningSender: string := "CHAIN"

  /** The value of the reward transaction a successful mining run pays. */
  const MiningReward: real := 1.0

  /** A value transfer. Amounts are float32 in the source and `real` here. */
  datatype Transaction = Transaction(sender: string, receiver: string, value: real)

  /** A committed (or candidate) block. `timestamp` is Unix nanoseconds. */
  datatype Block = Block(nonce: int, prevHash: Digest, timestamp: int, transactions: seq<Transaction>)

  /** The zero-valued `Block{}` whose hash is the genesis block's `prevHash`. */
  const ZeroBlock: Block := Block(0, ZeroDigest, 0, [])

  /** An ECDSA public key (a curve point) and signature (the pair r, s). */
  datatype PublicKey = PublicKey(x: int, y: int)
  datatype Signature = Signature(r: int, s: int)

  /** A nil-able reference, for the key and signature a caller may omit. */
  datatype Option<T> = None | Some(value: T)

  /** The primitives the ledger relies on but does not define: the SHA-256
      digest of a transaction's and of a block's JSON encoding, and ECDSA
      verification of a signature over a digest. Every property of the model
      holds for every choice of these functions. */
  datatype Crypto = Crypto(
    txHash: Transaction -> Digest,
    blockHash: Block -> Digest,
    verify: (PublicKey, Signature, Digest) -> bool)

  /** Signature verification over the transaction's own digest: the JSON
      encoding is hashed again here, which gives the same digest as the
      transaction's `Hash`. */
  predicate VerifyTransactionSignature(c: Crypto, key: PublicKey, sig: Signature, t: Transaction)
  {
    c.verify(key, sig, c.txHash(t))
  }

  /** The transaction that pays the mining reward to `address`. */
  function RewardTransaction(address: string): (t: Transaction)
  {
    Transaction(MiningSender, address, MiningReward)
  }
}

=== FILE: hex.dfy ===
/** Lowercase hexadecimal rendering of byte strings, as Go's `%x` verb prints a
    `[32]byte` digest: two lowercase hex digits per byte, high nibble first.
    The proof-of-work rule is stated on this rendering, so it is written out
    concretely and related back to the bytes it renders. */
module HexEncoding {

  newtype byte = x: int | 0 <= x < 256

  /** The lowercase hex digit of a nibble. */
  function HexDigit(n: int): (ch: char)
    requires 0 <= n < 16
    ensures ch == '0' <==> n == 0
    ensures '0' <= ch <= '9' || 'a' <= ch <= 'f'
  {
    if n < 10 then (48 + n) as char else (87 + n) as char
  }

  /** `fmt.Sprintf("%x", bytes)`. */
  function Hex(bytes: seq<byte>): (s: string)
    ensures |s| == 2 * |bytes|
  {
    if |bytes| == 0 then []
    else [HexDigit(bytes[0] as int / 16), HexDigit(bytes[0] as int % 16)] + Hex(bytes[1..])
  }

  /** Byte i is rendered at characters 2i (high nibble) and 2i+1 (low). */
  lemma {:induction false} HexAt(bytes: seq<byte>, i: int)
    requires 0 <= i < |bytes|
    ensures Hex(bytes)[2 * i] == HexDigit(bytes[i] as int / 16)
    ensures Hex(bytes)[2 * i + 1] == HexDigit(bytes[i] as int % 16)
  {
    if i > 0 {
      HexAt(bytes[1..], i - 1);
    }
  }

  /** `strings.Repeat(string(ch), n)`. */
  function Repeat(ch: char, n: nat): (s: string)
    ensures |s| == n
    ensures forall i :: 0 <= i < n ==> s[i] == ch
  {
    seq(n, _ => ch)
  }

  /** The first d nibbles are zero, said in bytes: the first d/2 bytes are 0
      and, when d is odd, the byte after them is below 16. */
  predicate ZeroNibblePrefix(bytes: seq<byte>, d: nat)
    requires d <= 2 * |bytes|
  {
    && (forall i :: 0 <= i < d / 2 ==> bytes[i] == 0)
    && (d % 2 == 1 ==> bytes[d / 2] < 16)
  }

  /** A byte's high nibble is zero exactly when it is below 16, and both
      nibbles are zero exactly when it is zero. */
  lemma NibblesOfByte(b: byte)
    ensures b as int / 16 == 0 <==> b < 16
    ensures (b as int / 16 == 0 && b as int % 16 == 0) <==> b == 0
  {
  }

  /** The characters of byte i are zeros as far as its nibbles are. */
  lemma ByteDigits(bytes: seq<byte>, i: int)
    requires 0 <= i < |bytes|
    ensures Hex(bytes)[2 * i] == '0' <==> bytes[i] < 16
    ensures (Hex(bytes)[2 * i] == '0' && Hex(bytes)[2 * i + 1] == '0') <==> bytes[i] == 0
  {
    HexAt(bytes, i);
    NibblesOfByte(bytes[i]);
  }

  /** Leading zero characters force leading zero nibbles. */
  lemma ZeroCharsOnlyIf(bytes: seq<byte>, d: nat)
    requires d <= 2 * |bytes|
    requires forall k :: 0 <= k < d ==> Hex(bytes)[k] == '0'
    ensures ZeroNibblePrefix(bytes, d)
  {
    forall i | 0 <= i < d / 2
      ensures bytes[i] == 0
    {
      ByteDigits(bytes, i);
    }
    if d % 2 == 1 {
      ByteDigits(bytes, d / 2);
    }
  }

  /** Leading zero nibbles give leading zero characters. */
  lemma ZeroCharsIf(bytes: seq<byte>, d: nat)
    requires d <= 2 * |bytes|
    requires ZeroNibblePrefix(bytes, d)
    ensures forall k :: 0 <= k < d ==> Hex(bytes)[k] == '0'
  {
    forall k | 0 <= k < d
      ensures Hex(bytes)[k] == '0'
    {
      var i := k / 2;
      ByteDigits(bytes, i);
      if i < d / 2 {
        assert bytes[i] == 0;
      } else {
        assert k == 2 * i && bytes[i] < 16;
      }
    }
  }

  /** The rendering starts with d '0' characters exactly when the first d
      nibbles of the bytes are zero: the first d/2 bytes are 0 and, when d
      is odd, the next byte is below 16. */
  lemma HexZeroPrefix(bytes: seq<byte>, d: nat)
    requires d <= 2 * |bytes|
    ensures Hex(bytes)[..d] == Repeat('0', d) <==> ZeroNibblePrefix(bytes, d)
  {
    var h := Hex(bytes);
    if h[..d] == Repeat('0', d) {
      assert forall k :: 0 <= k < d ==> h[k] == h[..d][k];
      ZeroCharsOnlyIf(bytes, d);
    }
    if ZeroNibblePrefix(bytes, d) {
      ZeroCharsIf(bytes, d);
      assert forall k :: 0 <= k < d ==> h[..d][k] == Repeat('0', d)[k];
    }
  }
}

=== FILE: ledger.dfy ===
/** The ledger: an append-only chain of blocks and a pool of admitted,
    not yet committed transactions, owned by one node identity. Operations
    are pure transitions from one ledger value to the next. */
module Ledger {
  import opened Blocks
  import opened Proofs
  import opened Balances

  type Port = p: int | 0 <= p < 0x1_0000

  datatype BlockChain = BlockChain(pool: seq<Transaction>, chain: seq<Block>, address: string, port: Port)

  /** The outcome of submitting a transaction: whether it was admitted, and
      the ledger afterwards. */
  datatype Admission = Admission(accepted: bool, ledger: BlockChain)

  /** Chain integrity: block 0 links to the zero-valued block and every later
      block links to the hash of the one before it. */
  predicate Linked(c: Crypto, chain: seq<Block>)
  {
    && |chain| > 0
    && chain[0].prevHash == c.blockHash(ZeroBlock)
    && forall i :: 0 < i < |chain| ==> chain[i].prevHash == c.blockHash(chain[i - 1])
  }

  /** The most recently committed block; the source indexes out of range
      (and panics) on an empty chain. */
  function LastBlock(bc: BlockChain): (b: Block)
    requires |bc.chain| > 0
    ensures b in bc.chain
    ensures bc.chain == bc.chain[..|bc.chain| - 1] + [b]
  {
    bc.chain[|bc.chain| - 1]
  }

  /** Commits the whole pool, in order, as a new block and empties the pool.
      `now` stands for the clock reading the new block is stamped with. */
  function CreateBlock(bc: BlockChain, nonce: int, prevHash: Digest, now: int): (r: BlockChain)
    ensures |r.chain| == |bc.chain| + 1
    ensures r.chain[..|bc.chain|] == bc.chain
    ensures LastBlock(r).nonce == nonce && LastBlock(r).prevHash == prevHash
    ensures LastBlock(r).timestamp == now
    ensures LastBlock(r).transactions == bc.pool
    ensures r.pool == []
    ensures r.address == bc.address && r.port == bc.port
  {
    var block := Block(nonce, prevHash, now, bc.pool);
    bc.(chain := bc.chain + [block], pool := [])
  }

  /** A commit keeps an intact chain intact exactly when it links the new
      block to the hash of the current last block. */
  lemma CreateBlockLinked(c: Crypto, bc: BlockChain, nonce: int, prevHash: Digest, now: int)
    requires Linked(c, bc.chain)
    ensures Linked(c, CreateBlock(bc, nonce, prevHash, now).chain) <==> prevHash == c.blockHash(LastBlock(bc))
  {
  }

  /** A fresh ledger: its chain is the genesis block alone, with nonce 0, no
      transactions and the hash of the zero-valued block as predecessor. */
  function NewBlockChain(c: Crypto, address: string, port: Port, now: int): (r: BlockChain)
    ensures |r.chain| == 1 && r.pool == []
    ensures LastBlock(r) == r.chain[0]
    ensures LastBlock(r).nonce == 0 && LastBlock(r).transactions == []
    ensures LastBlock(r).prevHash == c.blockHash(ZeroBlock)
    ensures Linked(c, r.chain)
    ensures r.address == address && r.port == port
  {
    var empty := BlockChain([], [], address, port);
    CreateBlock(empty, 0, c.blockHash(ZeroBlock), now)
  }

  /** Transaction admission. The reserved mining sender is admitted without
      a check; any other sender only with a signature that verifies over the
      transaction's digest. A missing key or signature for such a sender is
      a nil dereference in the source. */
  function AddTransaction(c: Crypto, bc: BlockChain, sender: string, receiver: string, value: real,
                          key: Option<PublicKey>, sig: Option<Signature>): (r: Admission)
    requires sender != MiningSender ==> key.Some? && sig.Some?
    ensures r.ledger.chain == bc.chain
    ensures r.ledger.address == bc.address && r.ledger.port == bc.port
    ensures sender == MiningSender ==> r.accepted
    ensures sender != MiningSender ==>
      (r.accepted <==> VerifyTransactionSignature(c, key.value, sig.value, Transaction(sender, receiver, value)))
    ensures r.accepted ==> r.ledger.pool == bc.pool + [Transaction(sender, receiver, value)]
    ensures !r.accepted ==> r.ledger.pool == bc.pool
  {
    var t := Transaction(sender, receiver, value);
    if sender == MiningSender then
      Admission(true, bc.(pool := bc.pool + [t]))
    else if VerifyTransactionSignature(c, key.value, sig.value, t) then
      Admission(true, bc.(pool := bc.pool + [t]))
    else
      Admission(false, bc)
  }

  /** A transaction-by-transaction copy of the pool, in the same order. */
  method CopyPool(bc: BlockChain) returns (transactions: seq<Transaction>)
    ensures transactions == bc.pool
  {
    transactions := [];
    for i := 0 to |bc.pool|
      invariant transactions == bc.pool[..i]
    {
      var t := bc.pool[i];
      transactions := transactions + [Transaction(t.sender, t.receiver, t.value)];
    }
  }

  /** Some nonce proves work for the current last block and the given
      transactions; without one the search would not end. */
  ghost predicate Mineable(c: Crypto, bc: BlockChain, transactions: seq<Transaction>)
    requires |bc.chain| > 0
  {
    exists n: nat :: ValidProof(c, n, c.blockHash(LastBlock(bc)), transactions, ProofOfWorkDifficulty)
  }

  /** Searches upward from 0 for a nonce that proves work over a copy of the
      pool and the hash of the last block. */
  method ProofOfWork(c: Crypto, bc: BlockChain) returns (nonce: int)
    requires |bc.chain| > 0
    requires Mineable(c, bc, bc.pool)
    ensures IsLeastValidNonce(c, nonce, c.blockHash(LastBlock(bc)), bc.pool, ProofOfWorkDifficulty)
  {
    var transactions := CopyPool(bc);
    var prevHash := c.blockHash(LastBlock(bc));
    nonce := 0;
    ghost var bound: nat :| ValidProof(c, bound, prevHash, transactions, ProofOfWorkDifficulty);
    while !ValidProof(c, nonce, prevHash, transactions, ProofOfWorkDifficulty)
      invariant 0 <= nonce <= bound
      invariant forall k :: 0 <= k < nonce ==> !ValidProof(c, k, prevHash, transactions, ProofOfWorkDifficulty)
      decreases bound - nonce
    {
      nonce := nonce + 1;
    }
  }

  /** Pays the reward to the ledger's own address, finds the least nonce over
      the resulting pool and commits the pool as a block linked to the
      previous last block. `now` stands for the commit-time clock reading. */
  method Mining(c: Crypto, bc: BlockChain, now: int) returns (ok: bool, bc': BlockChain)
    requires |bc.chain| > 0
    requires Mineable(c, bc, bc.pool + [RewardTransaction(bc.address)])
    ensures ok
    ensures |bc'.chain| == |bc.chain| + 1 && bc'.chain[..|bc.chain|] == bc.chain
    ensures LastBlock(bc').prevHash == c.blockHash(LastBlock(bc))
    ensures LastBlock(bc').transactions == bc.pool + [RewardTransaction(bc.address)]
    ensures LastBlock(bc').timestamp == now
    ensures IsLeastValidNonce(c, LastBlock(bc').nonce, LastBlock(bc').prevHash,
                              LastBlock(bc').transactions, ProofOfWorkDifficulty)
    ensures bc'.pool == [] && bc'.address == bc.address && bc'.port == bc.port
    ensures Linked(c, bc.chain) ==> Linked(c, bc'.chain)
    ensures forall a :: (Balance(bc'.chain, a) ==
      Balance(bc.chain, a) + TxsDelta(bc.pool, a) + TxDelta(RewardTransaction(bc.address), a))
  {
    var reward := AddTransaction(c, bc, MiningSender, bc.address, MiningReward, None, None);
    var withReward := reward.ledger;
    assert LastBlock(withReward) == LastBlock(bc);
    assert withReward.pool == bc.pool + [RewardTransaction(bc.address)];
    var nonce := ProofOfWork(c, withReward);
    var prevHash := c.blockHash(LastBlock(withReward));
    bc' := CreateBlock(withReward, nonce, prevHash, now);
    if Linked(c, bc.chain) {
      CreateBlockLinked(c, withReward, nonce, prevHash, now);
    }
    forall a
      ensures Balance(bc'.chain, a) ==
        Balance(bc.chain, a) + TxsDelta(bc.pool, a) + TxDelta(RewardTransaction(bc.address), a)
    {
      assert bc'.chain == bc.chain + [LastBlock(bc')];
      BalanceAppend(bc.chain, LastBlock(bc'), a);
      TxsDeltaConcat(bc.pool, [RewardTransaction(bc.address)], a);
    }
    ok := true;
  }

  /** The balance of `address`: walks every block and every transaction in
      order, adding the value when `address` receives and subtracting it when
      `address` sends. */
  method CalculateTotalAmount(bc: BlockChain, address: string) returns (total: real)
    ensures total == Balance(bc.chain, address)
  {
    total := 0.0;
    for i := 0 to |bc.chain|
      invariant total == Balance(bc.chain[..i], address)
    {
      var b := bc.chain[i];
      for j := 0 to |b.transactions|
        invariant total == Balance(bc.chain[..i], address) + TxsDelta(b.transactions[..j], address)
      {
        var t := b.transactions[j];
        var value := t.value;
        if address == t.receiver {
          total := total + value;
        }
        if address == t.sender {
          total := total - value;
        }
        assert b.transactions[..j + 1] == b.transactions[..j] + [t];
        TxsDeltaConcat(b.transactions[..j], [t], address);
      }
      assert b.transactions[..|b.transactions|] == b.transactions;
      assert bc.chain[..i + 1] == bc.chain[..i] + [b];
      BalanceAppend(bc.chain[..i], b, address);
    }
    assert bc.chain[..|bc.chain|] == bc.chain;
  }
}

=== FILE: proof.dfy ===
/** The proof-of-work rule: a nonce proves work for a predecessor hash and a
    list of transactions when the hex rendering of the hash of the candidate
    block built from them, with timestamp 0, starts with `difficulty` zeros. */
module Proofs {
  import opened HexEncoding
  import opened Blocks

  /** The difficulty declared beside the other mining constants. */
  const MiningDifficulty: int := 3

  /** The difficulty the nonce search actually uses, written there as a
      literal rather than as MiningDifficulty (the two agree). */
  const ProofOfWorkDifficulty: int := 3

  /** The block whose hash a proof is checked against: the timestamp is fixed
      at 0, whatever time the block is later committed at. */
  function Candidate(nonce: int, prevHash: Digest, transactions: seq<Transaction>): (b: Block)
  {
    Block(nonce, prevHash, 0, transactions)
  }

  /** `ValidProof`. A difficulty outside 0..64 makes the source panic
      (negative repeat count, or a slice past the 64 hex characters). */
  function ValidProof(c: Crypto, nonce: int, prevHash: Digest, transactions: seq<Transaction>, difficulty: int): (r: bool)
    requires 0 <= difficulty <= 64
    ensures r <==> ZeroNibblePrefix(c.blockHash(Candidate(nonce, prevHash, transactions)), difficulty)
    ensures difficulty == 0 ==> r
  {
    var zeros := Repeat('0', difficulty);
    var guess := Candidate(nonce, prevHash, transactions);
    var guessHash := Hex(c.blockHash(guess));
    HexZeroPrefix(c.blockHash(guess), difficulty);
    guessHash[..difficulty] == zeros
  }

  /** `nonce` is the first non-negative nonce that proves work. */
  predicate IsLeastValidNonce(c: Crypto, nonce: int, prevHash: Digest, transactions: seq<Transaction>, difficulty: int)
    requires 0 <= difficulty <= 64
  {
    && 0 <= nonce
    && ValidProof(c, nonce, prevHash, transactions, difficulty)
    && forall k :: 0 <= k < nonce ==> !ValidProof(c, k, prevHash, transactions, difficulty)
  }

  /** A proof at some difficulty is a proof at every lower difficulty. */
  lemma ValidProofMonotone(c: Crypto, nonce: int, prevHash: Digest, transactions: seq<Transaction>, d: int, e: int)
    requires 0 <= e <= d <= 64
    requires ValidProof(c, nonce, prevHash, transactions, d)
    ensures ValidProof(c, nonce, prevHash, transactions, e)
  {
  }

  /** At difficulty 0 the search stops at once: the least nonce is 0. */
  lemma LeastNonceAtZeroDifficulty(c: Crypto, nonce: int, prevHash: Digest, transactions: seq<Transaction>)
    ensures IsLeastValidNonce(c, nonce, prevHash, transactions, 0) <==> nonce == 0
  {
    assert ValidProof(c, 0, prevHash, transactions, 0);
  }

  /** The proof covers the timestamp-0 candidate only: for some hash function
      a block whose nonce proves work for its own predecessor hash and
      transactions still has a hash without the leading zeros. */
  lemma CommittedHashNotCovered()
    ensures exists c: Crypto, b: Block ::
      && ValidProof(c, b.nonce, b.prevHash, b.transactions, ProofOfWorkDifficulty)
      && !ZeroNibblePrefix(c.blockHash(b), ProofOfWorkDifficulty)
  {
    var ones: Digest := seq(32, _ => 255);
    var c := Crypto(
      (t: Transaction) => ZeroDigest,
      (blk: Block) => if blk.timestamp == 0 then ZeroDigest else ones,
      (k: PublicKey, s: Signature, h: Digest) => false);
    var b := Block(0, ZeroDigest, 1, []);
    assert ValidProof(c, b.nonce, b.prevHash, b.transactions, ProofOfWorkDifficulty);
    assert c.blockHash(b)[0] == 255;
  }
}

=== FILE: scenario.dfy ===
/** One node's life from start-up through a signed transfer and a mining run,
    with the balances it leaves behind. */
module Scenarios {
  import opened Blocks
  import opened Proofs
  import opened Balances
  import opened Ledger

  /** Node "A" starts, admits a signed transfer of 2.0 from "A" to "B" and
      mines: the new block holds the transfer followed by the reward, the
      pool is empty, "A" stands at -1.0 and "B" at 2.0. */
  method TransferAndMine(c: Crypto, key: PublicKey, sig: Signature, port: Port, startedAt: int, minedAt: int)
    returns (accepted: bool, ledger: BlockChain, balanceA: real, balanceB: real)
    requires c.verify(key, sig, c.txHash(Transaction("A", "B", 2.0)))
    requires exists n: nat :: ValidProof(c, n, c.blockHash(Block(0, c.blockHash(ZeroBlock), startedAt, [])),
                                         [Transaction("A", "B", 2.0), RewardTransaction("A")], ProofOfWorkDifficulty)
    ensures accepted
    ensures |ledger.chain| == 2 && ledger.pool == [] && Linked(c, ledger.chain)
    ensures LastBlock(ledger).transactions == [Transaction("A", "B", 2.0), Transaction("CHAIN", "A", 1.0)]
    ensures balanceA == -1.0 && balanceB == 2.0
  {
    var started := NewBlockChain(c, "A", port, startedAt);
    var submitted := AddTransaction(c, started, "A", "B", 2.0, Some(key), Some(sig));
    accepted := submitted.accepted;
    var genesis := Block(0, c.blockHash(ZeroBlock), startedAt, []);
    assert started.chain == submitted.ledger.chain == [genesis];
    assert submitted.ledger.pool + [RewardTransaction(submitted.ledger.address)]
        == [Transaction("A", "B", 2.0), RewardTransaction("A")];
    assert LastBlock(submitted.ledger) == genesis;
    assert [genesis][1..] == [];
    assert Balance([genesis], "A") == TxsDelta([], "A") + Balance([], "A") == 0.0;
    assert Balance([genesis], "B") == TxsDelta([], "B") + Balance([], "B") == 0.0;
    var ok;
    ok, ledger := Mining(c, submitted.ledger, minedAt);
    balanceA := CalculateTotalAmount(ledger, "A");
    balanceB := CalculateTotalAmount(ledger, "B");
    assert submitted.ledger.pool == [Transaction("A", "B", 2.0)];
    assert TxsDelta([Transaction("A", "B", 2.0)], "A") == -2.0;
    assert TxsDelta([Transaction("A", "B", 2.0)], "B") == 2.0;
    assert TxDelta(RewardTransaction("A"), "A") == 1.0;
    assert TxDelta(RewardTransaction("A"), "B") == 0.0;
  }
}
